=== FILE: README.md ===
# Event ticketing: booking and catalog routes in Dafny

This project models the decision logic of an event-ticketing backend. It covers two route files. The booking routes reserve seats and issue QR tickets, fetch a ticket image through a mailed link, and validate scanned tickets. The event-catalog routes list, create, update and delete events. Each route handler becomes a pure function. It takes an in-memory store and returns the reply the route sends, plus the store it leaves behind for the routes that write.

The store (`documents.dfy`) holds three maps keyed by string id:
- events: title, venue, category, date, time, `seatCapacity`, `bookedSeats`
- bookings: user, event, quantity, QR file name, booking date
- users: name, email, role

The database accepts only ids it can cast to an ObjectId: 24 hexadecimal digits, in either case. Any other id makes `findById` throw instead of answering "not found". The cast compares ids by value, so an upper-case spelling finds the document whose minted id is the same digits in lower case. The model keys the event and booking maps by the minted, lower-case spelling and casts a requested id with `Canon` before looking it up. Each route then does what its own error handling does with that throw. A `Reply` is one of three things:
- `Ok(body)`, a 200 with a body;
- `Fail(status, reason)`, where each reason maps to the route's exact message text through `Message`;
- `Unhandled`, when the handler's promise rejects outside any `try` and the route sends nothing itself.

Modules:
- `Text` (`text.dfy`): JavaScript's `indexOf` and `replace` with a string pattern. `replace` replaces only the first occurrence.
- `Optional` (`option.dfy`): the optional value of an absent parameter or body field.
- `Documents` (`documents.dfy`): the entities, the ObjectId cast, replies, and the store invariants. `LedgerOk` is `0 ≤ bookedSeats ≤ seatCapacity` for every event. `RefsOk` says every booking names an existing event and user. `KeysOk` says every key is a minted id.
- `Bookings` (`bookings.dfy`): `routes/bookings.js`.
- `Events` (`events.dfy`): `routes/events.js`.
- `Ledger` (`ledger.dfy`): the writing routes applied one after another. Soundness of the store across any sequence of requests, and the seat tally for a run of single-seat requests.

Behaviour the code has, and the model keeps:
- Booking checks `bookedSeats + quantity > seatCapacity`. It saves the booking first and then raises the counter. Nothing is rolled back. The sign of `quantity` is never checked, so a negative quantity lowers the counter below zero (`NegativeQuantityUnderflows`).
- Validation does not check for a prefix. It removes the first "BOOKING:" anywhere in the scanned value and looks up what remains. A bare booking id therefore validates exactly like the full payload (`BareIdScansLikePayload`). Nothing marks a ticket as used, so it can be validated any number of times.
- The ticket-image route answers 401 only for a missing or empty token. A token that fails verification is answered 403, not 401.
- The update route copies every field of the request body onto the event, `bookedSeats` included. It only checks a new `seatCapacity` against the current `bookedSeats`. An admin can therefore set `bookedSeats` above capacity (`UpdateCanOverbook`). The ledger invariant is proved for updates that do not set `bookedSeats`.

## Model

| member | source | states |
|---|---|---|
| Text.IndexOfFrom | routes/bookings.js:127 | the position found is an occurrence of the pattern at or after the start, and no earlier position from the start is one; `None` only when there is no occurrence at all |
| Text.ReplaceFirst | routes/bookings.js:127 | a value without the pattern comes back unchanged; a value the pattern leads becomes the replacement followed by the rest; otherwise the length changes by exactly one pattern-for-replacement swap |
| Text.ReplaceFirstSplits | routes/bookings.js:127 | replacing keeps everything before the first occurrence and everything after it, with the replacement in between |
| Documents.Canon | routes/bookings.js:53 | casting an ObjectId spelled in either case gives a minted (lower-case) id with the same value, and leaves a minted id as it is |
| Documents.SameObjectIdIsCanon | routes/bookings.js:53 | a minted id has the same value as a requested ObjectId exactly when it is the requested id cast |
| Documents.MatchingKeys | routes/bookings.js:53 | over minted keys, some key has the requested ObjectId's value exactly when the cast id is a key |
| Documents.FindById | routes/bookings.js:53 | an id that is not 24 hexadecimal digits is a cast error; a found document is stored under a key with the same ObjectId value as the requested id, upper-case digits included; over minted keys, "missing" holds exactly when no key has that value |
| Bookings.QrPayload | routes/bookings.js:63 | the ticket text's first "BOOKING:" is at its start, and everything after it is the booking id |
| Bookings.QrFileName | routes/bookings.js:64 | the image file name is seven characters longer than the id, and the id sits between the "qr-" and ".png" ends |
| Bookings.BookingIdOf | routes/bookings.js:127 | a scanned value without "BOOKING:" is read as it is; one that starts with it loses exactly that prefix; otherwise one marker's worth of characters is cut out |
| Bookings.PayloadRoundTrip | routes/bookings.js:127-128 | reading the id back out of the payload "BOOKING:" + id that line 63 encodes gives back exactly that id |
| Bookings.ObjectIdHasNoMarker | routes/bookings.js:127 | no ObjectId, in either case, contains "BOOKING:" |
| Bookings.BareIdReadsAsItself | routes/bookings.js:127 | a bare ObjectId is read as itself, so the marker is optional |
| Bookings.QrFileNameInjective | routes/bookings.js:64 | two bookings with the same image file name "qr-" + id + ".png" have the same id |
| Bookings.CreateBooking | routes/bookings.js:51-99 | uncastable event id: unhandled, store unchanged; no event with that id's value: 404 "Event not found", store unchanged; `bookedSeats + quantity > seatCapacity`: 400 "Not enough available seats", store unchanged; a new id already taken: unhandled, store unchanged; otherwise exactly one booking is added (caller, the event's minted id, quantity, file "qr-" + id + ".png", date) and the event's `bookedSeats` rises by exactly `quantity` with every other event and field unchanged; the reply is 200 with the saved booking and its id exactly when the caller's user document exists, and when it does not the request is unhandled with the writes kept |
| Bookings.CreateBookingKeepsLedger | routes/bookings.js:57-80 | if `0 ≤ bookedSeats ≤ seatCapacity` holds for every event before a booking with `quantity ≥ 0`, it holds after |
| Bookings.CreateBookingKeepsWf | routes/bookings.js:51-80 | a booking by an existing user with `quantity ≥ 0` keeps the ledger, the references and the ids sound |
| Bookings.NegativeQuantityUnderflows | routes/bookings.js:52-80 | a concrete request with quantity -1 is granted and drives `bookedSeats` below zero |
| Bookings.ListMyBookings | routes/bookings.js:36-39 | a booking is listed iff the caller owns it, and it is listed as stored |
| Bookings.NewBookingListed | routes/bookings.js:36-39 | after a booking, it appears in its owner's list as stored, and every other user's list is unchanged |
| Bookings.GetBookingAsWritten | routes/bookings.js:42-48 | as written, every castable id is answered 403 "Access denied", whoever owns the booking |
| Bookings.OwnerRefusedAsWritten | routes/bookings.js:44-45 | a concrete owner asking for their own booking is refused |
| Bookings.GetBooking | routes/bookings.js:42-48 | corrected ownership check: 200 with the stored booking iff one has the requested id's value and its owner is the caller; otherwise 403 "Access denied"; an uncastable id is unhandled |
| Bookings.QrFetch | routes/bookings.js:102-121 | missing or empty token: 401; token that fails verification: 403; token whose id claim differs from the path id: 403 "Invalid token"; 200 with the booking's file name iff the token vouches for the path id exactly as typed and a booking has that id's value; 404 iff it vouches for a well-formed id with no booking; 403 "Unauthorized access" when it vouches for an uncastable path id |
| Bookings.ValidateScan | routes/bookings.js:124-148 | the id is what remains after removing the first "BOOKING:"; an uncastable id is 500; an unknown id is 404 with `valid: false`; a stored booking whose event or owner is gone is 500; `valid: true` iff a booking with that id's value exists with its event and owner, and then the summary carries that booking's minted id, event title, owner name, quantity and booking date |
| Bookings.ScanIssuedTicket | routes/bookings.js:124-142 | scanning the payload of a ticket just issued finds it and reports its event's title, the caller's name, the quantity and the date |
| Bookings.LinkOpensTicket | routes/bookings.js:102-116 | the token mailed with a new ticket, which vouches for its id (line 85), opens the ticket's image file |
| Bookings.TokenBoundToItsBooking | routes/bookings.js:107-110 | a token for one booking never opens another booking's image |
| Bookings.OwnerReadsNewBooking | routes/bookings.js:44-47 | with the corrected check, the caller reads back a booking just made; with the check as written, the caller is refused it |
| Bookings.ScanUnknownTicket | routes/bookings.js:130-131 | a payload for a minted id with no booking is answered 404 |
| Bookings.ScanNeverFailsOnTickets | routes/bookings.js:128-146 | in a sound store a ticket payload is answered with `valid: true` or 404, never 500 |
| Bookings.BareIdScansLikePayload | routes/bookings.js:127-128 | scanning a bare minted id gives the same answer as scanning "BOOKING:" + id |
| Bookings.CaseVariantLikeMinted | routes/bookings.js:43-47 | a spelling of a booking's id with upper-case digits scans and reads back exactly like the minted id |
| Events.BuildFilter | routes/events.js:10-18 | the filter constrains the category iff a category is given, the venue iff a venue is given, and the date iff a date is given; a date that is not one makes an uncastable bound, and a day makes the window from it to one day later |
| Events.SatisfiesQuery | routes/events.js:10-21 | an event satisfies the built filter exactly when it has the given category, the given venue and a date in the given day |
| Events.ListEvents | routes/events.js:9-27 | an event is listed iff it matches every given filter: equal category, equal venue, and a date in the half-open window from the requested day to one day later; an empty or absent parameter imposes nothing; an unparseable date is 500 |
| Events.ListAllUnfiltered | routes/events.js:10-18 | with no filter given, the listing is exactly the catalog |
| Events.FiltersOnlyNarrow | routes/events.js:10-18 | adding a category filter never lists an event that the query without it leaves out |
| Events.GetEvent | routes/events.js:30-34 | 200 with the stored event iff one has the requested id's value; 404 for an unknown well-formed id; an uncastable id is unhandled |
| Events.CreateEvent | routes/events.js:37-42 | a non-admin is refused with 403 and nothing changes; an admin's create under an id already taken is unhandled with nothing changed; otherwise an admin adds exactly the given event under the new id, leaving every other event, booking and user unchanged |
| Events.CreatedEventReadsBack | routes/events.js:37-42 | an event an admin has just created is read back by `GET /:id` exactly as given |
| Events.ApplyPatch | routes/events.js:59 | every field the body sets takes the body's value, and every field it leaves out keeps the event's value |
| Events.UpdateEvent | routes/events.js:45-62 | non-admin: 403, nothing changes; uncastable id: unhandled; unknown event: 404, nothing changes; a new capacity below the current `bookedSeats`: 400 with both numbers, nothing changes; the update is accepted exactly when an admin names a stored event and the capacity check passes, and then exactly that event changes and the reply is the event as saved, whose title, venue, category, date, time, capacity and counter each equal the body's value when the body sets it and the old value when it does not |
| Events.UpdateKeepsLedger | routes/events.js:50-59 | an update that does not set `bookedSeats` keeps `0 ≤ bookedSeats ≤ seatCapacity` for every event |
| Events.UpdateCanOverbook | routes/events.js:50-59 | a concrete accepted update that sets `bookedSeats` to 11 on a 10-seat event breaks the ledger |
| Events.Referenced | routes/events.js:73-74 | the bookings found for an event are non-empty exactly when some booking names that event |
| Events.DeleteEvent | routes/events.js:65-80 | non-admin: 403; unknown event: 404; 400 while any booking names the event; success iff none does, and then exactly that event is removed with all other events and all bookings untouched |
| Events.DeleteKeepsRefs | routes/events.js:73-78 | a delete keeps every booking's event in the store |
| Events.GuardIsNeeded | routes/events.js:73-76 | removing an event that a booking names would leave that booking dangling |
| Ledger.StepKeepsWf | routes/events.js:37-80 | one tame write (an event creation within capacity, an update that does not set `bookedSeats`, a delete, or a booking with `quantity ≥ 0` by an existing user) keeps the ledger, references and ids sound and leaves the users unchanged |
| Ledger.RunKeepsWf | routes/bookings.js:57-80 | any sequence of bookings with `quantity ≥ 0` by existing users, event creations within capacity, updates that do not set `bookedSeats`, and deletes keeps the ledger, references and ids sound |
| Ledger.LastSeatGrantedOnce | routes/bookings.js:57-80 | of two single-seat requests for the last free seat, one after the other, the first is granted and the second gets 400 |
| Ledger.GrantsUpToCapacity | routes/bookings.js:57-80 | N single-seat requests with distinct fresh ids against an event with F free seats grant exactly min(N, F), and the counter rises by that many |

## Findings

| source | as written | input that shows it | evidently intended | confidence | as-written member | corrected member |
|---|---|---|---|---|---|---|
| routes/bookings.js:44 | `booking.user.toString() !== req.user._id` compares a string with an ObjectId object, and a string is never strictly equal to an object | the owner of an existing booking asks for it by its id | compare the two ids as strings, so the owner gets the booking | not executed; high, assuming the user schema keeps the default ObjectId `_id` (the schemas are not part of this model) | Bookings.GetBookingAsWritten | Bookings.GetBooking |

`Bookings.OwnerRefusedAsWritten` exhibits the refusal on a concrete store.

## Left out

- Express routing, `server.js` and static serving: framework wiring with no decisions in it.
- Mongoose persistence: replaced by maps. `populate` becomes a map lookup in validation. The booking bodies of `GET /` and `GET /:id` are the stored documents, without the event embedded. The 200 body of `POST /` is the saved booking document and its id; the QR text is not part of it.
- The schemas under `models/` are not part of this model. Defaults, required fields and type coercion of request bodies are not modelled, with one exception: a booking's date, which the booking route never sets, is taken to be the schema's default, the time of the request. Quantities, capacities and dates are integers, and an event's fields are taken exactly as the create body gives them.
- ObjectId casting is modelled for 24-hexadecimal-digit strings in either case. Other forms some driver versions also cast, such as 12-character strings read as raw bytes, are treated as uncastable. Fresh ids come from the database and are parameters; a collision with an existing id is a duplicate-key rejection (`Unhandled`).
- middleware/auth.js and routes/auth.js: the model starts from the authenticated user (`Principal`). Login signs a token with `_id`, while the middleware looks users up by `id`; how that plays out is outside this model.
- JWT signing and verification in the ticket-image route: a presented token is reduced to `Verification`, either rejected or accepted with its `id` claim. The one-hour expiry lives inside that oracle.
- QR image generation and the base64 file write (routes/bookings.js:63-73): only the payload text and the file name are kept. A failed generation (the helper returns null) is not modelled, and neither is a failed `sendFile` for an image already swept away.
- Email composition and sending (routes/bookings.js:84-96): network I/O whose errors are swallowed. The user lookup before it (lines 82-83) is modelled.
- The seven-day QR cleanup timer (routes/bookings.js:15-33): timer- and filesystem-driven.
- The admin dashboards (routes/bookings.js:151-176, routes/admin.js): read-only aggregation.
- Events.ListEvents: each of `category`, `venue` and `date` is taken as one string. A repeated parameter, which the query parser turns into an array and the database into an `$in` match, and a bracketed one, which becomes an operator object such as `$ne`, are not modelled, because the listing is stated for plain parameters only.
- Date parsing: the `date` parameter arrives already parsed. The window is modelled as 86,400,000 ms, whereas the route adds one calendar day in server local time, which differs on daylight-saving changes. Listing order is not modelled, and the listing is a map.
- Concurrency: the route reads the counter and writes it back in two separate steps. The model runs requests one at a time, so races between them are not expressible.
- Bookings.CreateBookingKeepsLedger: proved only for `quantity ≥ 0`, because the route accepts any quantity (see `NegativeQuantityUnderflows`).
- Events.UpdateKeepsLedger: proved only for bodies that do not set `bookedSeats`, because the route copies that field unchecked (see `UpdateCanOverbook`).
- Ledger.RunKeepsWf: holds for the sequential model only, and only for bookings with `quantity ≥ 0` by a caller whose user document exists, event creations whose body has `0 ≤ bookedSeats ≤ seatCapacity`, updates whose body does not set `bookedSeats`, and deletes.

=== FILE: bookings.dfy ===
/**
 The booking routes: reserving seats and issuing a ticket, reading one's own
 bookings, fetching the ticket image with the mailed link, and validating a
 scanned ticket.

 A ticket is identified by the text its QR image encodes, "BOOKING:" followed
 by the booking id; the image itself is stored under "qr-<id>.png". The image
 bytes, the mail and the signed link token are not modelled: only the two
 strings and the id the token vouches for are.
 */
module Bookings {
  import opened Optional
  import opened Text
  import opened Documents

  const Marker := "BOOKING:"

  /** The text encoded in the QR image of booking `id`: the marker leads it, and
      everything after the marker is the id. */
  function QrPayload(id: BookingId): (r: string)
    ensures IndexOf(r, Marker) == Some(0)
    ensures r[|Marker|..] == id
  {
    Marker + id
  }

  /** The file the QR image of booking `id` is stored in; the id can be read back from it. */
  function QrFileName(id: BookingId): (r: string)
    ensures |r| == |id| + 7
    ensures r[..3] == "qr-" && r[|r| - 4..] == ".png"
    ensures r[3..|r| - 4] == id
  {
    "qr-" + id + ".png"
  }

  /** The booking id the validation route reads out of a scanned value: a value
      without the marker is taken as it is; a value that starts with the marker
      loses exactly that prefix; otherwise the first marker, wherever it is, is cut out. */
  function BookingIdOf(qr: string): (r: string)
    ensures !Contains(qr, Marker) ==> r == qr
    ensures |qr| >= |Marker| && qr[..|Marker|] == Marker ==> r == qr[|Marker|..]
    ensures Contains(qr, Marker) ==> |r| == |qr| - |Marker|
  {
    ReplaceFirst(qr, Marker, "")
  }

  /** Scanning the payload of a ticket gives back the id it was issued for. */
  lemma PayloadRoundTrip(id: BookingId)
    ensures BookingIdOf(QrPayload(id)) == id
  {
  }

  /** No ObjectId, in either case, contains the marker: its letter 'O' is not a hexadecimal digit. */
  lemma {:induction false} ObjectIdHasNoMarker(id: string)
    requires IsObjectId(id)
    ensures !Contains(id, Marker)
  {
    forall i: nat | i <= |id|
      ensures !OccursAt(id, Marker, i)
    {
      if i + |Marker| <= |id| {
        assert id[i..i + |Marker|][1] == id[i + 1];
      }
    }
  }

  /** The marker is not required: a bare ObjectId is read as itself. */
  lemma {:induction false} BareIdReadsAsItself(id: string)
    requires IsObjectId(id)
    ensures BookingIdOf(id) == id
  {
    ObjectIdHasNoMarker(id);
  }

  /** Distinct bookings store their images under distinct file names. */
  lemma {:induction false} QrFileNameInjective(a: BookingId, b: BookingId)
    requires QrFileName(a) == QrFileName(b)
    ensures a == b
  {
    var fa, fb := QrFileName(a), QrFileName(b);
    assert |a| == |fa| - 7 == |b|;
    assert a == fa[3..3 + |a|];
    assert b == fb[3..3 + |b|];
  }

  // ----- POST / : reserve seats and issue a ticket -----

  /** The 200 body of a booking: the document as saved, under its new id. */
  datatype Ticket = Ticket(id: BookingId, booking: Booking)

  /** The checks that all pass before anything is written. */
  predicate Admits(st: Store, eventId: EventId, quantity: int, newId: BookingId) {
    && IsObjectId(eventId)
    && Canon(eventId) in st.events
    && st.events[Canon(eventId)].bookedSeats + quantity <= st.events[Canon(eventId)].seatCapacity
    && newId !in st.bookings
  }

  /** `after` is `st` with exactly one booking added under `newId` and exactly
      `quantity` more seats booked on the event stored under `eventId`; nothing else differs. */
  predicate Granted(st: Store, after: Store, caller: Principal, eventId: EventId,
                    quantity: int, newId: BookingId, now: int)
  {
    && eventId in st.events && eventId in after.events
    && after.events.Keys == st.events.Keys
    && after.events[eventId].bookedSeats == st.events[eventId].bookedSeats + quantity
    && after.events[eventId] == st.events[eventId].(bookedSeats := after.events[eventId].bookedSeats)
    && (forall x :: x in st.events && x != eventId ==> after.events[x] == st.events[x])
    && after.bookings.Keys == st.bookings.Keys + {newId}
    && newId !in st.bookings
    && after.bookings[newId] == Booking(caller.id, eventId, quantity, QrFileName(newId), now)
    && (forall x :: x in st.bookings ==> after.bookings[x] == st.bookings[x])
    && after.users == st.users
  }

  /** The first write: the booking document is saved. */
  function SaveBooking(st: Store, id: BookingId, b: Booking): Store {
    st.(bookings := st.bookings[id := b])
  }

  /** The second write: the event's seat counter is raised. */
  function AddSeats(st: Store, eventId: EventId, quantity: int): Store
    requires eventId in st.events
  {
    var e := st.events[eventId];
    st.(events := st.events[eventId := e.(bookedSeats := e.bookedSeats + quantity)])
  }

  /**
   The booking route. `newId` is the id the database mints for the new
   document and `now` its booking date. The event id is cast, so any spelling
   of a stored event's id finds it, and the booking records the minted
   spelling. An id the database cannot cast makes
   the event lookup reject outside any `try`; an id already taken makes the
   save reject the same way. The caller's user document is read only after
   both writes, so a missing one leaves the booking in place and the request
   unanswered.
   */
  function CreateBooking(st: Store, caller: Principal, eventId: EventId, quantity: int,
                         newId: ObjectId, now: int): (o: Outcome<Ticket>)
    ensures !IsObjectId(eventId) ==> o == Outcome(Unhandled, st)
    ensures IsObjectId(eventId) && Canon(eventId) !in st.events ==> o == Outcome(Fail(404, EventNotFound), st)
    ensures IsObjectId(eventId) && Canon(eventId) in st.events &&
            st.events[Canon(eventId)].bookedSeats + quantity > st.events[Canon(eventId)].seatCapacity
            ==> o == Outcome(Fail(400, NotEnoughSeats), st)
    ensures !Admits(st, eventId, quantity, newId) ==> o.after == st && !o.reply.Ok?
    ensures Admits(st, eventId, quantity, newId) ==>
              Granted(st, o.after, caller, Canon(eventId), quantity, newId, now)
    ensures IsObjectId(eventId) && Canon(eventId) in st.events &&
            st.events[Canon(eventId)].bookedSeats + quantity <= st.events[Canon(eventId)].seatCapacity &&
            newId in st.bookings
            ==> o == Outcome(Unhandled, st)
    ensures Admits(st, eventId, quantity, newId) && caller.id !in st.users ==> o.reply == Unhandled
    ensures o.reply.Ok? <==> Admits(st, eventId, quantity, newId) && caller.id in st.users
    ensures o.reply.Ok? ==> o.reply.body == Ticket(newId, o.after.bookings[newId])
  {
    match FindById(st.events, eventId)
    case CastError => Outcome(Unhandled, st)
    case Missing => Outcome(Fail(404, EventNotFound), st)
    case Found(e) =>
      if e.bookedSeats + quantity > e.seatCapacity then Outcome(Fail(400, NotEnoughSeats), st)
      else if newId in st.bookings then Outcome(Unhandled, st)
      else
        var key := Canon(eventId);
        var booking := Booking(caller.id, key, quantity, QrFileName(newId), now);
        var saved := SaveBooking(st, newId, booking);
        var after := AddSeats(saved, key, quantity);
        if caller.id !in st.users then Outcome(Unhandled, after)
        else Outcome(Ok(Ticket(newId, booking)), after)
  }

  /** A booking with a non-negative quantity keeps every event's ledger within capacity. */
  lemma CreateBookingKeepsLedger(st: Store, caller: Principal, eventId: EventId,
                                 quantity: int, newId: ObjectId, now: int)
    requires LedgerOk(st)
    requires quantity >= 0
    ensures LedgerOk(CreateBooking(st, caller, eventId, quantity, newId, now).after)
  {
  }

  /** Booking also keeps references and ids well formed, given an existing caller. */
  lemma CreateBookingKeepsWf(st: Store, caller: Principal, eventId: EventId,
                             quantity: int, newId: ObjectId, now: int)
    requires Wf(st)
    requires quantity >= 0
    requires caller.id in st.users
    ensures Wf(CreateBooking(st, caller, eventId, quantity, newId, now).after)
  {
  }

  /** The route never checks the sign of the quantity: a negative one lowers the counter below zero. */
  lemma NegativeQuantityUnderflows()
    ensures var e := "0123456789abcdef01234567";
            var st := Store(map[e := Event("Gala", "Hall", "music", 0, "20:00", 10, 0)], map[],
                            map["u1" := User("Ann", "ann@example.org", "user")]);
            var o := CreateBooking(st, Principal("u1", "user"), e, -1, "76543210fedcba9876543210", 0);
            LedgerOk(st) && o.reply.Ok? && !LedgerOk(o.after)
  {
    var e := "0123456789abcdef01234567";
    assert IsObjectId(e) && IsMinted(e);
    assert Canon(e) == e;
    var st := Store(map[e := Event("Gala", "Hall", "music", 0, "20:00", 10, 0)], map[],
                    map["u1" := User("Ann", "ann@example.org", "user")]);
    var o := CreateBooking(st, Principal("u1", "user"), e, -1, "76543210fedcba9876543210", 0);
    assert !SeatsOk(o.after.events[e]);
  }

  // ----- GET / : the caller's own bookings -----

  /** The bookings whose owner is the caller, each as stored. */
  function ListMyBookings(st: Store, caller: Principal): (r: map<BookingId, Booking>)
    ensures forall id :: id in r <==> id in st.bookings && st.bookings[id].user == caller.id
    ensures forall id :: id in r ==> r[id] == st.bookings[id]
  {
    map id | id in st.bookings && st.bookings[id].user == caller.id :: st.bookings[id]
  }

  // ----- GET /:id : one booking, for its owner only -----

  /** A value as the route holds it: a primitive string or an ObjectId object. */
  datatype JsValue = JsString(s: string) | JsObjectId(hex: string)

  /** JavaScript's `===` on these values: strings compare by content; a string
      never equals an object, and two ObjectId objects are distinct instances. */
  predicate StrictEquals(a: JsValue, b: JsValue) {
    a.JsString? && b.JsString? && a.s == b.s
  }

  /**
   The route as written: it compares the owner's id, turned into a string,
   with the caller's `_id`, which is still an ObjectId object, using `!==`.
   */
  function GetBookingAsWritten(st: Store, caller: Principal, id: BookingId): (r: Reply<Booking>)
    ensures !IsObjectId(id) ==> r == Unhandled
    ensures IsObjectId(id) ==> r == Fail(403, AccessDenied)
  {
    match FindById(st.bookings, id)
    case CastError => Unhandled
    case Missing => Fail(403, AccessDenied)
    case Found(b) =>
      if !StrictEquals(JsString(b.user), JsObjectId(caller.id)) then Fail(403, AccessDenied)
      else Ok(b)
  }

  /** As written, even the owner of a booking is refused it: a concrete instance
      of the second postcondition above, kept as the example behind the README finding. */
  lemma OwnerRefusedAsWritten()
    ensures var id := "0123456789abcdef01234567";
            var st := Store(map[], map[id := Booking("u1", "e1", 1, QrFileName(id), 0)], map[]);
            GetBookingAsWritten(st, Principal("u1", "user"), id) == Fail(403, AccessDenied)
  {
  }

  /** The ownership check the route evidently intends: the two ids compared as strings. */
  function GetBooking(st: Store, caller: Principal, id: BookingId): (r: Reply<Booking>)
    ensures !IsObjectId(id) ==> r == Unhandled
    ensures r.Ok? <==> IsObjectId(id) && Canon(id) in st.bookings && st.bookings[Canon(id)].user == caller.id
    ensures r.Ok? ==> r.body == st.bookings[Canon(id)]
    ensures IsObjectId(id) && !r.Ok? ==> r == Fail(403, AccessDenied)
  {
    match FindById(st.bookings, id)
    case CastError => Unhandled
    case Missing => Fail(403, AccessDenied)
    case Found(b) =>
      if !StrictEquals(JsString(b.user), JsString(caller.id)) then Fail(403, AccessDenied)
      else Ok(b)
  }

  // ----- GET /qr/:id : the ticket image behind the mailed link -----

  /** What signature-and-expiry verification made of a presented token: rejected
      (the call throws), or accepted with the `id` claim it carries, if any. */
  datatype Verification = Rejected | Accepted(idClaim: Option<string>)

  /** The `token` query parameter: absent, or a raw string and its verification. */
  datatype QrToken = NoToken | Token(raw: string, verification: Verification)

  /** The token minted for booking `id` when it is issued, while it is unexpired. */
  function LinkToken(raw: string, id: BookingId): QrToken {
    Token(raw, Accepted(Some(id)))
  }

  predicate Presented(token: QrToken) {
    token.Token? && token.raw != ""
  }

  /**
   The image route. A missing or empty token is refused with 401; every other
   failure, a thrown verification or cast error included, with 403, except a
   well-formed id without a booking, which is 404. The token's claim is
   compared with the path as typed, the lookup then casts the path. The 200
   body is the name of the file sent.
   */
  function QrFetch(st: Store, pathId: BookingId, token: QrToken): (r: Reply<string>)
    ensures !Presented(token) ==> r == Fail(401, TokenRequired)
    ensures Presented(token) && token.verification.Rejected? ==> r == Fail(403, UnauthorizedAccess)
    ensures Presented(token) && token.verification.Accepted? && token.verification.idClaim != Some(pathId)
            ==> r == Fail(403, InvalidToken)
    ensures r.Ok? <==> Presented(token) && token.verification == Accepted(Some(pathId))
                       && IsObjectId(pathId) && Canon(pathId) in st.bookings
    ensures r.Ok? ==> r.body == st.bookings[Canon(pathId)].qrCode
    ensures r.Fail? && r.status == 404 <==>
            Presented(token) && token.verification == Accepted(Some(pathId))
            && IsObjectId(pathId) && Canon(pathId) !in st.bookings
    ensures Presented(token) && token.verification == Accepted(Some(pathId)) && !IsObjectId(pathId)
            ==> r == Fail(403, UnauthorizedAccess)
  {
    if !Presented(token) then Fail(401, TokenRequired)
    else match token.verification
      case Rejected => Fail(403, UnauthorizedAccess)
      case Accepted(claim) =>
        if claim != Some(pathId) then Fail(403, InvalidToken)
        else match FindById(st.bookings, pathId)
          case CastError => Fail(403, UnauthorizedAccess)
          case Missing => Fail(404, BookingNotFound)
          case Found(b) => Ok(b.qrCode)
  }

  // ----- GET /validate/:qr : check a scanned ticket -----

  /** The 200 body of a valid scan. */
  datatype Summary = Summary(id: BookingId, event: string, user: string, quantity: int, date: int)

  /**
   The validation route. The scanned value loses its first "BOOKING:", the
   rest is cast and looked up, and the booking's event and owner are joined in;
   the reported id is the stored, minted one. Any
   throw (a cast error, or a booking whose event or owner no longer exists)
   is answered 500.
   */
  function ValidateScan(st: Store, qr: string): (r: Reply<Summary>)
    ensures var id := BookingIdOf(qr);
            !IsObjectId(id) ==> r == Fail(500, ValidateFailed)
    ensures var id := BookingIdOf(qr);
            IsObjectId(id) && Canon(id) !in st.bookings ==> r == Fail(404, InvalidQrCode)
    ensures var key := Canon(BookingIdOf(qr));
            r.Ok? <==> IsObjectId(BookingIdOf(qr)) && key in st.bookings
                       && st.bookings[key].event in st.events && st.bookings[key].user in st.users
    ensures var key := Canon(BookingIdOf(qr));
            r.Ok? ==> var b := st.bookings[key];
                      r.body == Summary(key, st.events[b.event].title, st.users[b.user].name,
                                        b.quantity, b.bookingDate)
    ensures IsObjectId(BookingIdOf(qr)) && Canon(BookingIdOf(qr)) in st.bookings && !r.Ok?
            ==> r == Fail(500, ValidateFailed)
    ensures !r.Ok? ==> r.Fail? && (r.status == 404 || r.status == 500)
  {
    var id := BookingIdOf(qr);
    match FindById(st.bookings, id)
    case CastError => Fail(500, ValidateFailed)
    case Missing => Fail(404, InvalidQrCode)
    case Found(b) =>
      if b.event !in st.events || b.user !in st.users then Fail(500, ValidateFailed)
      else Ok(Summary(Canon(id), st.events[b.event].title, st.users[b.user].name, b.quantity, b.bookingDate))
  }

  // ----- What a freshly issued ticket can be used for -----

  /** Scanning a freshly issued ticket finds its booking and reports its event, holder, quantity and date. */
  lemma {:induction false} ScanIssuedTicket(st: Store, caller: Principal, eventId: EventId,
                                            quantity: int, newId: ObjectId, now: int)
    requires CreateBooking(st, caller, eventId, quantity, newId, now).reply.Ok?
    ensures var after := CreateBooking(st, caller, eventId, quantity, newId, now).after;
            ValidateScan(after, QrPayload(newId))
              == Ok(Summary(newId, st.events[Canon(eventId)].title, st.users[caller.id].name, quantity, now))
  {
    PayloadRoundTrip(newId);
  }

  /** The link mailed with a ticket opens its image while the token is unexpired. */
  lemma LinkOpensTicket(st: Store, caller: Principal, eventId: EventId,
                        quantity: int, newId: ObjectId, now: int, raw: string)
    requires CreateBooking(st, caller, eventId, quantity, newId, now).reply.Ok?
    requires raw != ""
    ensures var after := CreateBooking(st, caller, eventId, quantity, newId, now).after;
            QrFetch(after, newId, LinkToken(raw, newId)) == Ok(QrFileName(newId))
  {
  }

  /** A token for one booking never opens another booking's image. */
  lemma TokenBoundToItsBooking(st: Store, a: BookingId, b: BookingId, raw: string)
    requires a != b
    ensures !QrFetch(st, b, LinkToken(raw, a)).Ok?
  {
  }

  /** The owner can read back a booking just made; as written, the route refuses it. */
  lemma OwnerReadsNewBooking(st: Store, caller: Principal, eventId: EventId,
                             quantity: int, newId: ObjectId, now: int)
    requires CreateBooking(st, caller, eventId, quantity, newId, now).reply.Ok?
    ensures var o := CreateBooking(st, caller, eventId, quantity, newId, now);
            && GetBooking(o.after, caller, newId) == Ok(o.reply.body.booking)
            && GetBookingAsWritten(o.after, caller, newId) == Fail(403, AccessDenied)
  {
  }

  /** A ticket for a booking that does not exist is reported invalid with 404. */
  lemma {:induction false} ScanUnknownTicket(st: Store, id: ObjectId)
    requires id !in st.bookings
    ensures ValidateScan(st, QrPayload(id)) == Fail(404, InvalidQrCode)
  {
    PayloadRoundTrip(id);
  }

  /** In a well-formed store a ticket payload is never answered with 500. */
  lemma ScanNeverFailsOnTickets(st: Store, id: ObjectId)
    requires Wf(st)
    ensures var r := ValidateScan(st, QrPayload(id));
            r.Ok? || r == Fail(404, InvalidQrCode)
  {
  }

  /** The marker is not checked: a bare id scans exactly like the full payload. */
  lemma {:induction false} BareIdScansLikePayload(st: Store, id: ObjectId)
    ensures ValidateScan(st, id) == ValidateScan(st, QrPayload(id))
  {
    BareIdReadsAsItself(id);
    PayloadRoundTrip(id);
  }

  /** Any spelling of a booking's ObjectId, upper-case digits included, scans and
      reads back exactly like the minted one. */
  lemma {:induction false} CaseVariantLikeMinted(st: Store, caller: Principal, id: ObjectId, variant: string)
    requires SameObjectId(id, variant)
    ensures ValidateScan(st, variant) == ValidateScan(st, id)
    ensures GetBooking(st, caller, variant) == GetBooking(st, caller, id)
  {
    SameObjectIdIsCanon(id, variant);
    BareIdReadsAsItself(variant);
    BareIdReadsAsItself(id);
  }

  /** A new booking shows up in its owner's list, and every other user's list is unchanged. */
  lemma NewBookingListed(st: Store, caller: Principal, eventId: EventId,
                         quantity: int, newId: ObjectId, now: int, other: Principal)
    requires CreateBooking(st, caller, eventId, quantity, newId, now).reply.Ok?
    requires other.id != caller.id
    ensures var o := CreateBooking(st, caller, eventId, quantity, newId, now);
            && newId in ListMyBookings(o.after, caller)
            && ListMyBookings(o.after, caller)[newId] == o.reply.body.booking
            && ListMyBookings(o.after, other) == ListMyBookings(st, other)
  {
  }
}

=== FILE: documents.dfy ===
/**
 The documents the booking and catalog routes work on, the in-memory store
 that stands in for the document database, and the replies a route sends.

 Every document is addressed by a string id. The database only accepts ids
 it can cast to an ObjectId; a `findById` with any other string rejects with a
 cast error instead of answering "not found", and each route then does what
 its own error handling does with that rejection.
 */
module Documents {

  type UserId = string
  type EventId = string
  type BookingId = string

  predicate IsHexDigit(c: char) {
    '0' <= c <= '9' || 'a' <= c <= 'f' || 'A' <= c <= 'F'
  }

  predicate IsLowerHexDigit(c: char) {
    '0' <= c <= '9' || 'a' <= c <= 'f'
  }

  function HexValue(c: char): int
    requires IsHexDigit(c)
  {
    if '0' <= c <= '9' then c as int - '0' as int
    else if 'a' <= c <= 'f' then c as int - 'a' as int + 10
    else c as int - 'A' as int + 10
  }

  /** A string the database casts to an ObjectId: 24 hexadecimal digits, in either case. */
  predicate IsObjectId(s: string) {
    |s| == 24 && forall i :: 0 <= i < |s| ==> IsHexDigit(s[i])
  }

  /** The string form of an ObjectId as the database mints and prints it: lower-case. */
  predicate IsMinted(s: string) {
    |s| == 24 && forall i :: 0 <= i < |s| ==> IsLowerHexDigit(s[i])
  }

  /** The ids the database mints for new documents. */
  type ObjectId = s: string | IsMinted(s) witness "000000000000000000000000"

  /** Do two castable strings denote the same ObjectId, digit value by digit value? */
  predicate SameObjectId(a: string, b: string) {
    IsObjectId(a) && IsObjectId(b) && forall i :: 0 <= i < 24 ==> HexValue(a[i]) == HexValue(b[i])
  }

  function LowerHex(c: char): char {
    if 'A' <= c <= 'F' then (c as int - 'A' as int + 'a' as int) as char else c
  }

  /** The minted spelling of the ObjectId a castable string denotes. */
  function Canon(s: string): (r: string)
    ensures |r| == |s|
    ensures IsObjectId(s) ==> IsMinted(r) && SameObjectId(r, s)
    ensures IsMinted(s) ==> r == s
  {
    seq(|s|, i requires 0 <= i < |s| => LowerHex(s[i]))
  }

  /** A minted id denotes the same ObjectId as a castable string exactly when it is its minted spelling. */
  lemma SameObjectIdIsCanon(k: string, id: string)
    requires IsMinted(k) && IsObjectId(id)
    ensures SameObjectId(k, id) <==> k == Canon(id)
  {
  }

  predicate MintedKeys<T>(m: map<string, T>) {
    forall k :: k in m ==> IsMinted(k)
  }

  /** Over minted keys, some key denotes the requested ObjectId exactly when its minted spelling is a key. */
  lemma {:induction false} MatchingKeys<T>(m: map<string, T>, id: string)
    requires IsObjectId(id)
    ensures MintedKeys(m) ==> ((exists k :: k in m && SameObjectId(k, id)) <==> Canon(id) in m)
  {
    if MintedKeys(m) {
      forall k | k in m
        ensures SameObjectId(k, id) <==> k == Canon(id)
      {
        SameObjectIdIsCanon(k, id);
      }
    }
  }

  datatype Event = Event(
    title: string,
    venue: string,
    category: string,
    date: int,           // milliseconds since the epoch
    time: string,
    seatCapacity: int,
    bookedSeats: int)

  datatype Booking = Booking(
    user: UserId,
    event: EventId,
    quantity: int,
    qrCode: string,      // file name of the stored QR image
    bookingDate: int)

  datatype User = User(name: string, email: string, role: string)

  datatype Store = Store(
    events: map<EventId, Event>,
    bookings: map<BookingId, Booking>,
    users: map<UserId, User>)

  /** The user the authentication middleware attached to the request. */
  datatype Principal = Principal(id: UserId, role: string)

  predicate IsAdmin(p: Principal) {
    p.role == "admin"
  }

  /** What `findById` answers: a cast error, no document, or the document. */
  datatype Lookup<T> = CastError | Missing | Found(value: T)

  /**
   The database's `findById`: the id is cast to an ObjectId first, which
   fails for anything but 24 hexadecimal digits, and the document found is
   the one whose id denotes the same ObjectId, whatever the case of the
   letters in the request.
   */
  function FindById<T>(m: map<string, T>, id: string): (r: Lookup<T>)
    ensures r.CastError? <==> !IsObjectId(id)
    ensures r.Found? ==> exists k :: k in m && SameObjectId(k, id) && r.value == m[k]
    ensures IsObjectId(id) && MintedKeys(m) ==>
              (r.Missing? <==> forall k :: k in m ==> !SameObjectId(k, id))
    ensures r.Found? ==> Canon(id) in m && r.value == m[Canon(id)]
    ensures r.Missing? ==> Canon(id) !in m
  {
    if !IsObjectId(id) then CastError
    else
      var key := Canon(id);
      if key in m then Found(m[key])
      else MatchingKeys(m, id); Missing
  }

  /** The error bodies the routes send, one per distinct message. */
  datatype Reason =
    | EventNotFound
    | NotEnoughSeats
    | AccessDenied
    | AdminsOnlyDelete
    | CapacityBelowBooked(requested: int, booked: int)
    | HasBookings
    | TokenRequired
    | InvalidToken
    | UnauthorizedAccess
    | BookingNotFound
    | InvalidQrCode
    | ValidateFailed
    | RetrieveFailed

  /** A route's answer: a 200 with a body, an error status with its reason, or
      nothing at all when the handler's promise rejects outside any `try`. */
  datatype Reply<+T> = Ok(body: T) | Fail(status: int, reason: Reason) | Unhandled

  /** A state-changing route's answer together with the store it leaves behind. */
  datatype Outcome<+T> = Outcome(reply: Reply<T>, after: Store)

  function Digits(n: nat): string
    decreases n
  {
    var d := ['0', '1', '2', '3', '4', '5', '6', '7', '8', '9'][n % 10];
    if n < 10 then [d] else Digits(n / 10) + [d]
  }

  /** A JavaScript integer as a template literal prints it. */
  function Decimal(n: int): string {
    if n < 0 then "-" + Digits(-n) else Digits(n)
  }

  /** The `error` (or `message`) text each reason is sent with. */
  function Message(r: Reason): string {
    match r
    case EventNotFound => "Event not found"
    case NotEnoughSeats => "Not enough available seats"
    case AccessDenied => "Access denied"
    case AdminsOnlyDelete => "Only admins can delete events"
    case CapacityBelowBooked(c, b) =>
      "Cannot reduce seat capacity (" + Decimal(c) + ") below currently booked seats (" + Decimal(b) + ")"
    case HasBookings => "Event has bookings and cannot be deleted"
    case TokenRequired => "Token required"
    case InvalidToken => "Invalid token"
    case UnauthorizedAccess => "Unauthorized access"
    case BookingNotFound => "Booking not found"
    case InvalidQrCode => "Invalid or expired QR code"
    case ValidateFailed => "Failed to validate ticket"
    case RetrieveFailed => "Failed to retrieve events"
  }

  /** The seat ledger of one event: never negative, never above capacity. */
  predicate SeatsOk(e: Event) {
    0 <= e.bookedSeats <= e.seatCapacity
  }

  predicate LedgerOk(st: Store) {
    forall id :: id in st.events ==> SeatsOk(st.events[id])
  }

  /** Every booking names an event and a user that exist. */
  predicate RefsOk(st: Store) {
    forall id :: id in st.bookings ==>
      st.bookings[id].event in st.events && st.bookings[id].user in st.users
  }

  /** Every stored event and booking sits under an id the database minted. */
  predicate KeysOk(st: Store) {
    MintedKeys(st.events) && MintedKeys(st.bookings)
  }

  predicate Wf(st: Store) {
    LedgerOk(st) && RefsOk(st) && KeysOk(st)
  }
}

=== FILE: events.dfy ===
/**
 The event catalog routes: the public listing with its optional filters, a
 single event, and the admin-only create, update and delete.
 */
module Events {
  import opened Optional
  import opened Documents

  /** One day in milliseconds: the width of the listing's date window. */
  const DayMs := 86400000

  // ----- GET / : list events, optionally filtered -----

  /** The `date` query parameter once parsed: absent, not a date, or the instant it parses to. */
  datatype DateParam = NoDate | InvalidDate | OnDay(start: int)

  /** The query parameters; an empty string counts as absent, as the route's truthiness tests make it. */
  datatype Query = Query(category: Option<string>, venue: Option<string>, date: DateParam)

  /** Is a query parameter given, in the sense of a JavaScript `if (param)`? */
  predicate Given(p: Option<string>) {
    p.Some? && p.value != ""
  }

  /** The date constraint of the filter document: a window, or a bound the database cannot cast. */
  datatype Window = Between(from: int, until: int) | Uncastable

  /** The filter document the route builds: one optional constraint per field. */
  datatype Filter = Filter(category: Option<string>, date: Option<Window>, venue: Option<string>)

  /** Each given query parameter becomes one constraint: category and venue by
      equality, a date by the day-long window that starts at it. */
  function BuildFilter(q: Query): (f: Filter)
    ensures f.category.Some? <==> Given(q.category)
    ensures f.category.Some? ==> f.category == q.category
    ensures f.venue.Some? <==> Given(q.venue)
    ensures f.venue.Some? ==> f.venue == q.venue
    ensures f.date.None? <==> q.date.NoDate?
    ensures f.date == Some(Uncastable) <==> q.date.InvalidDate?
    ensures q.date.OnDay? ==> f.date == Some(Between(q.date.start, q.date.start + DayMs))
  {
    Filter(
      if Given(q.category) then q.category else None,
      match q.date
      case NoDate => None
      case InvalidDate => Some(Uncastable)
      case OnDay(d) => Some(Between(d, d + DayMs)),
      if Given(q.venue) then q.venue else None)
  }

  /** The database's reading of a filter against one event. */
  predicate Satisfies(e: Event, f: Filter)
    requires f.date != Some(Uncastable)
  {
    && (f.category.None? || e.category == f.category.value)
    && (f.date.None? || f.date.value.from <= e.date < f.date.value.until)
    && (f.venue.None? || e.venue == f.venue.value)
  }

  /** An event satisfies the filter built from a query exactly when it meets every
      given parameter. */
  lemma SatisfiesQuery(e: Event, q: Query)
    requires !q.date.InvalidDate?
    ensures Satisfies(e, BuildFilter(q)) <==>
              && (Given(q.category) ==> e.category == q.category.value)
              && (Given(q.venue) ==> e.venue == q.venue.value)
              && (q.date.OnDay? ==> q.date.start <= e.date < q.date.start + DayMs)
  {
  }

  /**
   The listing route. An event is listed iff it meets every given filter: the
   same category, the same venue, and a date in the half-open day starting at
   the requested date. A date that does not parse makes the query fail, which
   the route answers with 500.
   */
  function ListEvents(st: Store, q: Query): (r: Reply<map<EventId, Event>>)
    ensures r.Ok? <==> !q.date.InvalidDate?
    ensures !r.Ok? ==> r == Fail(500, RetrieveFailed)
    ensures r.Ok? ==> forall id :: id in r.body <==>
              && id in st.events
              && (Given(q.category) ==> st.events[id].category == q.category.value)
              && (Given(q.venue) ==> st.events[id].venue == q.venue.value)
              && (q.date.OnDay? ==> q.date.start <= st.events[id].date < q.date.start + DayMs)
    ensures r.Ok? ==> forall id :: id in r.body ==> r.body[id] == st.events[id]
  {
    var f := BuildFilter(q);
    if f.date == Some(Uncastable) then Fail(500, RetrieveFailed)
    else Ok(map id | id in st.events && Satisfies(st.events[id], f) :: st.events[id])
  }

  /** With no filter given, every event is listed. */
  lemma ListAllUnfiltered(st: Store, category: Option<string>, venue: Option<string>)
    requires !Given(category) && !Given(venue)
    ensures ListEvents(st, Query(category, venue, NoDate)) == Ok(st.events)
  {
    var r := ListEvents(st, Query(category, venue, NoDate));
    forall id | id in st.events
      ensures id in r.body && r.body[id] == st.events[id]
    {
    }
    assert r.body.Keys == st.events.Keys;
    assert r.body == st.events;
  }

  /** Giving one more filter never lists an event the query without it left out. */
  lemma FiltersOnlyNarrow(st: Store, q: Query, c: string)
    requires !q.date.InvalidDate?
    ensures ListEvents(st, q.(category := Some(c))).body.Keys <= ListEvents(st, q.(category := None)).body.Keys
  {
  }

  // ----- GET /:id : one event -----

  /** The single-event route: the id is cast, then looked up; an uncastable id
      rejects outside any `try`. */
  function GetEvent(st: Store, id: EventId): (r: Reply<Event>)
    ensures !IsObjectId(id) ==> r == Unhandled
    ensures IsObjectId(id) && Canon(id) !in st.events ==> r == Fail(404, EventNotFound)
    ensures r.Ok? <==> IsObjectId(id) && Canon(id) in st.events
    ensures r.Ok? ==> r.body == st.events[Canon(id)]
  {
    match FindById(st.events, id)
    case CastError => Unhandled
    case Missing => Fail(404, EventNotFound)
    case Found(e) => Ok(e)
  }

  // ----- POST / : create an event (admin only) -----

  /** The 200 body of a create: the new event under its minted id. */
  datatype Stored = Stored(id: EventId, event: Event)

  /**
   The create route: the request body becomes the event document as given.
   `newId` is the id the database mints; one already taken makes the save
   reject outside any `try`.
   */
  function CreateEvent(st: Store, caller: Principal, newId: ObjectId, body: Event): (o: Outcome<Stored>)
    ensures !IsAdmin(caller) ==> o == Outcome(Fail(403, AccessDenied), st)
    ensures o.reply.Ok? <==> IsAdmin(caller) && newId !in st.events
    ensures IsAdmin(caller) && newId in st.events ==> o == Outcome(Unhandled, st)
    ensures !o.reply.Ok? ==> o.after == st
    ensures o.reply.Ok? ==> o.reply.body == Stored(newId, body)
    ensures o.reply.Ok? ==> && o.after.events.Keys == st.events.Keys + {newId}
                            && o.after.events[newId] == body
                            && (forall x :: x in st.events ==> o.after.events[x] == st.events[x])
                            && o.after.bookings == st.bookings
                            && o.after.users == st.users
  {
    if !IsAdmin(caller) then Outcome(Fail(403, AccessDenied), st)
    else if newId in st.events then Outcome(Unhandled, st)
    else Outcome(Ok(Stored(newId, body)), st.(events := st.events[newId := body]))
  }

  /** An event an admin has just created reads back as given. */
  lemma CreatedEventReadsBack(st: Store, caller: Principal, newId: ObjectId, body: Event)
    requires CreateEvent(st, caller, newId, body).reply.Ok?
    ensures GetEvent(CreateEvent(st, caller, newId, body).after, newId) == Ok(body)
  {
  }

  // ----- PUT /:id : update an event (admin only) -----

  /** The fields a request body sets; any field of the event may be among them. */
  datatype EventPatch = EventPatch(
    title: Option<string>,
    venue: Option<string>,
    category: Option<string>,
    date: Option<int>,
    time: Option<string>,
    seatCapacity: Option<int>,
    bookedSeats: Option<int>)

  function Pick<T>(given: Option<T>, current: T): T {
    if given.Some? then given.value else current
  }

  /** Copies every field the body sets onto the event, leaving the others. */
  function ApplyPatch(e: Event, p: EventPatch): (r: Event)
    ensures p.title.Some? ==> r.title == p.title.value
    ensures p.venue.Some? ==> r.venue == p.venue.value
    ensures p.category.Some? ==> r.category == p.category.value
    ensures p.date.Some? ==> r.date == p.date.value
    ensures p.time.Some? ==> r.time == p.time.value
    ensures p.seatCapacity.Some? ==> r.seatCapacity == p.seatCapacity.value
    ensures p.bookedSeats.Some? ==> r.bookedSeats == p.bookedSeats.value
    ensures p.title.None? ==> r.title == e.title
    ensures p.venue.None? ==> r.venue == e.venue
    ensures p.category.None? ==> r.category == e.category
    ensures p.date.None? ==> r.date == e.date
    ensures p.time.None? ==> r.time == e.time
    ensures p.seatCapacity.None? ==> r.seatCapacity == e.seatCapacity
    ensures p.bookedSeats.None? ==> r.bookedSeats == e.bookedSeats
    ensures p == EventPatch(None, None, None, None, None, None, None) ==> r == e
    ensures p.title.None? && p.venue.None? && p.category.None? && p.date.None? && p.time.None?
            ==> r.(seatCapacity := e.seatCapacity, bookedSeats := e.bookedSeats) == e
    ensures p.seatCapacity.None? && p.bookedSeats.None?
            ==> r.(title := e.title, venue := e.venue, category := e.category, date := e.date, time := e.time) == e
  {
    Event(
      Pick(p.title, e.title),
      Pick(p.venue, e.venue),
      Pick(p.category, e.category),
      Pick(p.date, e.date),
      Pick(p.time, e.time),
      Pick(p.seatCapacity, e.seatCapacity),
      Pick(p.bookedSeats, e.bookedSeats))
  }

  /**
   The update route. A new capacity below the seats booked so far is refused
   with 400; otherwise every field the body sets is copied onto the event,
   the booked-seat counter included, without further checks.
   */
  function UpdateEvent(st: Store, caller: Principal, id: EventId, patch: EventPatch): (o: Outcome<Event>)
    ensures !IsAdmin(caller) ==> o == Outcome(Fail(403, AccessDenied), st)
    ensures IsAdmin(caller) && !IsObjectId(id) ==> o == Outcome(Unhandled, st)
    ensures IsAdmin(caller) && IsObjectId(id) && Canon(id) !in st.events ==> o == Outcome(Fail(404, EventNotFound), st)
    ensures IsAdmin(caller) && IsObjectId(id) && Canon(id) in st.events &&
            patch.seatCapacity.Some? && patch.seatCapacity.value < st.events[Canon(id)].bookedSeats
            ==> o == Outcome(Fail(400, CapacityBelowBooked(patch.seatCapacity.value,
                                                           st.events[Canon(id)].bookedSeats)), st)
    ensures o.reply.Ok? <==>
              && IsAdmin(caller) && IsObjectId(id) && Canon(id) in st.events
              && !(patch.seatCapacity.Some? && patch.seatCapacity.value < st.events[Canon(id)].bookedSeats)
    ensures !o.reply.Ok? ==> o.after == st
    ensures o.reply.Ok? ==>
              && IsAdmin(caller) && IsObjectId(id) && Canon(id) in st.events
              && (patch.seatCapacity.Some? ==> patch.seatCapacity.value >= st.events[Canon(id)].bookedSeats)
              && o.after.events.Keys == st.events.Keys
              && o.reply.body == o.after.events[Canon(id)]
              && (forall x :: x in st.events && x != Canon(id) ==> o.after.events[x] == st.events[x])
              && o.after.bookings == st.bookings
              && o.after.users == st.users
    ensures o.reply.Ok? ==> o.reply.body.title
                              == (if patch.title.Some? then patch.title.value else st.events[Canon(id)].title)
    ensures o.reply.Ok? ==> o.reply.body.venue
                              == (if patch.venue.Some? then patch.venue.value else st.events[Canon(id)].venue)
    ensures o.reply.Ok? ==> o.reply.body.category
                              == (if patch.category.Some? then patch.category.value else st.events[Canon(id)].category)
    ensures o.reply.Ok? ==> o.reply.body.date
                              == (if patch.date.Some? then patch.date.value else st.events[Canon(id)].date)
    ensures o.reply.Ok? ==> o.reply.body.time
                              == (if patch.time.Some? then patch.time.value else st.events[Canon(id)].time)
    ensures o.reply.Ok? ==> o.reply.body.seatCapacity
                              == (if patch.seatCapacity.Some? then patch.seatCapacity.value
                                  else st.events[Canon(id)].seatCapacity)
    ensures o.reply.Ok? ==> o.reply.body.bookedSeats
                              == (if patch.bookedSeats.Some? then patch.bookedSeats.value
                                  else st.events[Canon(id)].bookedSeats)
  {
    if !IsAdmin(caller) then Outcome(Fail(403, AccessDenied), st)
    else match FindById(st.events, id)
      case CastError => Outcome(Unhandled, st)
      case Missing => Outcome(Fail(404, EventNotFound), st)
      case Found(e) =>
        if patch.seatCapacity.Some? && patch.seatCapacity.value < e.bookedSeats then
          Outcome(Fail(400, CapacityBelowBooked(patch.seatCapacity.value, e.bookedSeats)), st)
        else
          var updated := ApplyPatch(e, patch);
          Outcome(Ok(updated), st.(events := st.events[Canon(id) := updated]))
  }

  /** An accepted update that leaves the booked-seat counter alone keeps every ledger within capacity. */
  lemma UpdateKeepsLedger(st: Store, caller: Principal, id: EventId, patch: EventPatch)
    requires LedgerOk(st)
    requires patch.bookedSeats.None?
    ensures LedgerOk(UpdateEvent(st, caller, id, patch).after)
  {
  }

  /** A body that sets the booked-seat counter is not checked against the capacity. */
  lemma UpdateCanOverbook()
    ensures var id := "0123456789abcdef01234567";
            var st := Store(map[id := Event("Gala", "Hall", "music", 0, "20:00", 10, 2)], map[], map[]);
            var o := UpdateEvent(st, Principal("admin1", "admin"), id,
                                 EventPatch(None, None, None, None, None, None, Some(11)));
            LedgerOk(st) && o.reply.Ok? && !LedgerOk(o.after)
  {
    var id := "0123456789abcdef01234567";
    assert IsObjectId(id) && IsMinted(id);
    assert Canon(id) == id;
    var st := Store(map[id := Event("Gala", "Hall", "music", 0, "20:00", 10, 2)], map[], map[]);
    var o := UpdateEvent(st, Principal("admin1", "admin"), id,
                         EventPatch(None, None, None, None, None, None, Some(11)));
    assert !SeatsOk(o.after.events[id]);
  }

  // ----- DELETE /:id : delete an event (admin only, only without bookings) -----

  /** The bookings the delete route finds for event `id`. */
  function BookingsFor(st: Store, id: EventId): set<BookingId> {
    set b | b in st.bookings && st.bookings[b].event == id
  }

  /** Some booking is found for event `id` exactly when some booking names it. */
  lemma {:induction false} FoundIffNamed(st: Store, id: EventId)
    ensures |BookingsFor(st, id)| > 0 <==> exists b :: b in st.bookings && st.bookings[b].event == id
  {
    var found := BookingsFor(st, id);
    if |found| > 0 {
      assert found != {};
      var b :| b in found;
      assert b in st.bookings && st.bookings[b].event == id;
    } else {
      assert found == {};
      forall b | b in st.bookings
        ensures st.bookings[b].event != id
      {
        assert b !in found;
      }
    }
  }

  /** The route's `bookings.length > 0`: some booking names event `id`. */
  function Referenced(st: Store, id: EventId): (r: bool)
    ensures r <==> exists b :: b in st.bookings && st.bookings[b].event == id
  {
    FoundIffNamed(st, id);
    |BookingsFor(st, id)| > 0
  }

  /**
   The delete route: refused with 400 while any booking names the event (by
   its stored id); otherwise exactly that event is removed.
   */
  function DeleteEvent(st: Store, caller: Principal, id: EventId): (o: Outcome<()>)
    ensures !IsAdmin(caller) ==> o == Outcome(Fail(403, AdminsOnlyDelete), st)
    ensures IsAdmin(caller) && !IsObjectId(id) ==> o == Outcome(Unhandled, st)
    ensures IsAdmin(caller) && IsObjectId(id) && Canon(id) !in st.events ==> o == Outcome(Fail(404, EventNotFound), st)
    ensures IsAdmin(caller) && IsObjectId(id) && Canon(id) in st.events && Referenced(st, Canon(id))
            ==> o == Outcome(Fail(400, HasBookings), st)
    ensures o.reply.Ok? <==> IsAdmin(caller) && IsObjectId(id) && Canon(id) in st.events && !Referenced(st, Canon(id))
    ensures !o.reply.Ok? ==> o.after == st
    ensures o.reply.Ok? ==> && o.after.events.Keys == st.events.Keys - {Canon(id)}
                            && (forall x :: x in o.after.events ==> o.after.events[x] == st.events[x])
                            && o.after.bookings == st.bookings
                            && o.after.users == st.users
  {
    if !IsAdmin(caller) then Outcome(Fail(403, AdminsOnlyDelete), st)
    else match FindById(st.events, id)
      case CastError => Outcome(Unhandled, st)
      case Missing => Outcome(Fail(404, EventNotFound), st)
      case Found(_) =>
        var key := Canon(id);
        if Referenced(st, key) then Outcome(Fail(400, HasBookings), st)
        else Outcome(Ok(()), st.(events := st.events - {key}))
  }

  /** The has-bookings guard is what keeps every booking's event in the store. */
  lemma DeleteKeepsRefs(st: Store, caller: Principal, id: EventId)
    requires RefsOk(st)
    ensures RefsOk(DeleteEvent(st, caller, id).after)
  {
  }

  /** Without the guard, deleting a booked event would leave its bookings dangling. */
  lemma GuardIsNeeded(st: Store, id: EventId, b: BookingId)
    requires b in st.bookings && st.bookings[b].event == id
    ensures !RefsOk(st.(events := st.events - {id}))
  {
  }
}

=== FILE: ledger.dfy ===
/**
 The routes that change the store, taken one after another: the seat ledger
 and the references between documents stay sound across any sequence of
 them, as long as no booking asks for a negative quantity and no update sets
 the booked-seat counter directly. Requests are modelled as running one at a
 time; the route itself reads the counter and writes it back in two steps.
 */
module Ledger {
  import opened Documents
  import opened Bookings
  import opened Events

  /** A request to one of the routes that write. */
  datatype Op =
    | Book(caller: Principal, eventId: EventId, quantity: int, newId: ObjectId, now: int)
    | AddEvent(caller: Principal, newEventId: ObjectId, body: Event)
    | Update(caller: Principal, id: EventId, patch: EventPatch)
    | Delete(caller: Principal, id: EventId)

  function Step(st: Store, op: Op): Store {
    match op
    case Book(c, e, q, n, t) => CreateBooking(st, c, e, q, n, t).after
    case AddEvent(c, n, b) => CreateEvent(st, c, n, b).after
    case Update(c, i, p) => UpdateEvent(st, c, i, p).after
    case Delete(c, i) => DeleteEvent(st, c, i).after
  }

  function Run(st: Store, ops: seq<Op>): Store
    decreases |ops|
  {
    if ops == [] then st else Run(Step(st, ops[0]), ops[1..])
  }

  /** The requests the invariant survives: the ones the routes leave unchecked are excluded. */
  predicate Tame(op: Op, users: map<UserId, User>) {
    match op
    case Book(c, _, q, _, _) => q >= 0 && c.id in users
    case AddEvent(_, _, b) => SeatsOk(b)
    case Update(_, _, p) => p.bookedSeats.None?
    case Delete(_, _) => true
  }

  /** One tame request keeps the store well formed and never touches the users. */
  lemma StepKeepsWf(st: Store, op: Op)
    requires Wf(st)
    requires Tame(op, st.users)
    ensures Wf(Step(st, op))
    ensures Step(st, op).users == st.users
  {
  }

  /** Every sequence of tame requests keeps the store well formed. */
  lemma {:induction false} RunKeepsWf(st: Store, ops: seq<Op>)
    requires Wf(st)
    requires forall i :: 0 <= i < |ops| ==> Tame(ops[i], st.users)
    ensures Wf(Run(st, ops))
    decreases |ops|
  {
    if ops != [] {
      StepKeepsWf(st, ops[0]);
      RunKeepsWf(Step(st, ops[0]), ops[1..]);
    }
  }

  /** Of two single-seat requests for the last free seat, the first is granted and the second refused. */
  lemma LastSeatGrantedOnce(st: Store, a: Principal, b: Principal, eventId: EventId,
                            idA: ObjectId, idB: ObjectId, now: int)
    requires IsObjectId(eventId) && Canon(eventId) in st.events
    requires st.events[Canon(eventId)].bookedSeats + 1 == st.events[Canon(eventId)].seatCapacity
    requires idA !in st.bookings && a.id in st.users
    ensures var first := CreateBooking(st, a, eventId, 1, idA, now);
            var second := CreateBooking(first.after, b, eventId, 1, idB, now);
            first.reply.Ok? && second == Outcome(Fail(400, NotEnoughSeats), first.after)
  {
  }

  /** The tally of a run of single-seat requests for one event, one fresh id each. */
  datatype Tally = Tally(granted: nat, after: Store)

  function BookEach(st: Store, caller: Principal, eventId: EventId, ids: seq<ObjectId>, now: int): Tally
    decreases |ids|
  {
    if ids == [] then Tally(0, st)
    else
      var o := CreateBooking(st, caller, eventId, 1, ids[0], now);
      var rest := BookEach(o.after, caller, eventId, ids[1..], now);
      Tally((if o.reply.Ok? then 1 else 0) + rest.granted, rest.after)
  }

  predicate Distinct<T(==)>(s: seq<T>) {
    forall i, j :: 0 <= i < j < |s| ==> s[i] != s[j]
  }

  function Min(a: int, b: int): int {
    if a <= b then a else b
  }

  /**
   N single-seat requests against an event with F free seats grant exactly
   min(N, F) of them and raise the counter by that much: never more than the
   capacity, and no free seat refused.
   */
  lemma {:induction false} GrantsUpToCapacity(st: Store, caller: Principal, eventId: EventId,
                                              ids: seq<ObjectId>, now: int)
    requires IsObjectId(eventId) && Canon(eventId) in st.events
    requires st.events[Canon(eventId)].bookedSeats <= st.events[Canon(eventId)].seatCapacity
    requires caller.id in st.users
    requires Distinct(ids)
    requires forall i :: 0 <= i < |ids| ==> ids[i] !in st.bookings
    ensures var t := BookEach(st, caller, eventId, ids, now);
            var key := Canon(eventId);
            var e := st.events[key];
            && t.granted == Min(|ids|, e.seatCapacity - e.bookedSeats)
            && key in t.after.events
            && t.after.events[key].bookedSeats == e.bookedSeats + t.granted
            && t.after.events[key].seatCapacity == e.seatCapacity
            && t.after.users == st.users
    decreases |ids|
  {
    if ids != [] {
      var o := CreateBooking(st, caller, eventId, 1, ids[0], now);
      var tail := ids[1..];
      assert forall i :: 0 <= i < |tail| ==> tail[i] == ids[i + 1];
      forall i | 0 <= i < |tail|
        ensures tail[i] !in o.after.bookings
      {
        assert tail[i] != ids[0];
      }
      GrantsUpToCapacity(o.after, caller, eventId, tail, now);
    }
  }
}

=== FILE: option.dfy ===
/** An optional value: a query parameter or a body field that may be absent. */
module Optional {

  datatype Option<+T> = None | Some(value: T)
}

=== FILE: text.dfy ===
/**
 The two string operations the booking routes rely on: JavaScript's
 `String.prototype.replace` with a plain string pattern (which replaces the
 FIRST occurrence of the pattern, wherever it is, and nothing else), and the
 search for that first occurrence underneath it.
 */
module Text {
  import opened Optional

  /** Does `pat` occur in `s` starting at position `i`? */
  predicate OccursAt(s: string, pat: string, i: nat) {
    i + |pat| <= |s| && s[i..i + |pat|] == pat
  }

  /** Does `pat` occur anywhere in `s`? */
  predicate Contains(s: string, pat: string) {
    exists i: nat :: i <= |s| && OccursAt(s, pat, i)
  }

  /** The first position at or after `from` where `pat` occurs in `s`. */
  function IndexOfFrom(s: string, pat: string, from: nat): (r: Option<nat>)
    decreases |s| - from
    ensures r.Some? ==> from <= r.value && OccursAt(s, pat, r.value)
    ensures forall j: nat :: from <= j && (r.None? || j < r.value) ==> !OccursAt(s, pat, j)
  {
    if from + |pat| > |s| then None
    else if s[from..from + |pat|] == pat then Some(from)
    else IndexOfFrom(s, pat, from + 1)
  }

  /** `s.indexOf(pat)`: the first position of `pat` in `s`, or None for -1. */
  function IndexOf(s: string, pat: string): (r: Option<nat>)
    ensures r.Some? <==> Contains(s, pat)
    ensures r.Some? ==> OccursAt(s, pat, r.value)
    ensures r.Some? ==> forall j: nat :: j < r.value ==> !OccursAt(s, pat, j)
  {
    IndexOfFrom(s, pat, 0)
  }

  /** `s.replace(pat, rep)` for a string `pat`: only the first occurrence is replaced.
      `rep` is taken literally, so this is the call for a replacement without
      `$` patterns, such as the empty one the validation route uses. */
  function ReplaceFirst(s: string, pat: string, rep: string): (r: string)
    ensures !Contains(s, pat) ==> r == s
    ensures Contains(s, pat) ==> |r| == |s| - |pat| + |rep|
    ensures |pat| <= |s| && s[..|pat|] == pat ==> r == rep + s[|pat|..]
  {
    match IndexOf(s, pat)
    case None => s
    case Some(i) => s[..i] + rep + s[i + |pat|..]
  }

  /** Replacing the first occurrence keeps everything before it and everything after it. */
  lemma ReplaceFirstSplits(s: string, pat: string, rep: string, i: nat)
    requires OccursAt(s, pat, i)
    requires forall j: nat :: j < i ==> !OccursAt(s, pat, j)
    ensures ReplaceFirst(s, pat, rep) == s[..i] + rep + s[i + |pat|..]
  {
  }
}
